=== FILE: README.md ===
# chick: a Dafny model of the enrichment core

`chick` is a command-line tool that resolves a domain or IP address and, for
every resulting address, runs three lookups in parallel: reverse DNS (PTR
records), ipinfo.io (country and organization), and the IRCnet I-line API
(server names). It then prints one coloured record per address.

This project models the pure decision logic between those I/O calls, all of
it in `chick.go`:

- **Resolve** (`resolve.dfy`): `validateInput` and its fatal exit, the
  target's address list, and the `-4`/`-6` address-family filter of `main`. Exactly one task is launched per kept
  address, in input order, and `totalIPs` counts them.
- **ILine** (`iline.dfy`): `getILineInfo` from the decoded
  `{status, response[]}` value onwards. Only the exact status `SUCCESS` is
  trusted; the server names come out in response order.
- **Merge** (`merge.dfy`): `lookupIP`, folding the three sub-lookup outcomes
  into one `Result`. The goroutines finish in some order, and the model
  replays their writes sequentially in a completion order. That order is any
  permutation of the three, and every property is proved for all of them.
  The IP-info and I-line branches append to the error with `"; "`. The PTR
  branch overwrites it. The reference definition `SurvivingError` says the
  final message is the fragments written since the last failing PTR
  completion, joined with `"; "`.
- **Presenter** (`presenter.dfy`): `printResult` as a function from a record
  to its output lines. Colour wrappers are the identity. Also the report loop
  that prints every collected record, together with `SplitRecords`, which cuts
  a report back into its records.
- **Run** (`run.dfy`): the launch/collect/print flow of `main`. `Launch`
  turns the target's resolution into tasks through the family filter.
  `Execute` then collects and renders them into the report. The concurrency
  is replaced by explicit inputs: per-task outcomes, per-task completion
  orders and the arrival order at the collector. This module also holds the
  end-to-end scenarios.
- `wrappers.dfy` (`Option`, `Outcome`) and `text.dfy` (`strings.Join`) are
  shared helpers.

Four behaviours of the code worth knowing:

- Not every failing sub-lookup's message survives in the aggregated error.
  A PTR failure replaces the message (chick.go:155), so fragments written
  before it are lost. `Merge.PtrLastOverwrites` and `Merge.LostFragments`
  state this. `Merge.AllFragmentsSurvive` gives the condition under which
  nothing is lost when the goroutines' writes do not overlap: PTR succeeds or
  completes first.
- Each failure message carries the prefix of its sub-lookup:
  `error looking up PTR records: `, `error fetching IP info: ` or
  `error fetching I-line info: `. A non-`SUCCESS` I-line status produces the
  detail `failed to get I-line info`.
- A resolution that returns no addresses is not an error. The
  code only checks the error returned by `net.LookupIP` (chick.go:263-267).
  `Resolve.Targets` passes an empty successful list through, and that list
  launches no tasks.
- Records are printed in the order they reach the collector, not in address
  order. `Run.Collected` models this.

## Model

| member | source | states |
|---|---|---|
| Resolve.Validate | chick.go:220-236 | A target that parses as an IP is always accepted. A hostname is rejected exactly when its host lookup fails, and the run then ends with "Error: invalid domain or IP address: " followed by that lookup's error. |
| Resolve.Targets | chick.go:252-268 | A literal IP target yields exactly that one address, whatever DNS would say. A hostname yields the resolver's list. A resolver error becomes the fatal "Error looking up IP for domain: …" message. |
| Resolve.Keep | chick.go:271-273 | With neither switch or with both, every address passes the filter. With only `-4`, exactly the IPv4 addresses pass; with only `-6`, exactly the IPv6 addresses. |
| Resolve.LaunchTasks | chick.go:270-278 | The launch loop starts exactly the tasks of the reference filter `Kept`, one per address passing the filter and in input order. `totalIPs` equals the number of tasks. Every task comes from a kept address. |
| Resolve.KeptMembers | chick.go:271-277 | A task is launched if and only if some input address passes the `-4`/`-6` filter and has that task's text and family. |
| Resolve.KeptAppend | chick.go:271-277 | Filtering distributes over concatenation of address lists, so tasks keep the relative order of their addresses. |
| Resolve.KeptAll | chick.go:273 | With neither `-4` nor `-6`, or with both, every address gets a task, and task i belongs to address i. |
| Resolve.KeptOnly | chick.go:272-273 | With only `-4` (or only `-6`), the number of tasks equals the number of addresses of that family. Every task is of that family, and every address of that family has a task. |
| Resolve.KeptSplitsByFamily | chick.go:272-273 | The `-4`-only tasks plus the `-6`-only tasks are exactly as many as the tasks without a switch: the filter splits the addresses by family, losing and duplicating none. |
| ILine.ServerNames | chick.go:136-139 | The extracted list has one entry per response element, and entry i is element i's `serverName`. |
| ILine.Interpret | chick.go:132-141 | The answer is an error exactly when the status is not `SUCCESS`, and that error is "failed to get I-line info". On success the server list matches the response element by element. |
| ILine.FetchILine | chick.go:110-141 | A transport or decoding error is returned unchanged. A decoded answer with status `SUCCESS` yields exactly the response's server names, in order. Any other status fails with the status error. |
| ILine.NonSuccessIgnoresResponse | chick.go:132-134 | A non-`SUCCESS` status gives the same error whatever the response array holds. |
| ILine.EmptySuccess | chick.go:136-141 | `SUCCESS` with an empty response is a success with no servers, not an error. |
| ILine.StatusIsCaseSensitive | chick.go:132 | The status comparison is exact: `success` in lower case is a failure. |
| Merge.Initial | chick.go:146 | A task's record starts with its address and family and with no PTR names, no IP info, no I-line servers and no error. |
| Merge.Fragment | chick.go:151-182 | A failing sub-lookup's message is its own prefix ("error looking up PTR records: ", "error fetching IP info: " or "error fetching I-line info: ") followed exactly by the error that sub-lookup returned. |
| Merge.Origin | chick.go:155-182 | A message recognised as coming from a sub-lookup starts with that sub-lookup's prefix. An unrecognised one starts with none of the three prefixes. |
| Merge.FragmentOrigin | chick.go:155-182 | The prefixes are unambiguous: from any failure fragment, the sub-lookup that produced it and its original error are recovered exactly. |
| Merge.Appended | chick.go:165-168 | With no previous error the new message is the bare fragment. Otherwise it is the previous message, then `"; "`, then the fragment: the previous message is a prefix and the fragment a suffix. |
| Merge.Apply | chick.go:151-187 | One completed sub-lookup sets only its own data field, and only on success. A success leaves the error unchanged. A PTR failure replaces the error with its own fragment. An IP-info or I-line failure sets the error to the bare fragment if there was none, and otherwise to the previous message followed by `"; "` and the fragment, so the previous message stays a prefix. |
| Merge.Fold | chick.go:148-189 | After any sequence of completions, each data field holds its lookup's value iff that lookup completed successfully, and is untouched otherwise. The error is unchanged if nothing failed and present if something did. Address and family never change. |
| Merge.LookupIP | chick.go:144-191 | For every completion order: the PTR, IP-info and I-line fields are set iff their own lookup succeeded, and are empty or absent otherwise. The error is absent iff all three lookups succeeded. |
| Merge.FoldError | chick.go:151-187 | For every completion sequence, the final error equals the reference `SurvivingError`: the fragments written since the last failing PTR completion, joined with `"; "`. |
| Merge.AllFragmentsSurvive | chick.go:155-182 | If PTR succeeds or completes first, the error holds every failing lookup's fragment in completion order, joined with `"; "`, and is absent if none failed. |
| Merge.PtrLastOverwrites | chick.go:155 | If PTR fails and completes last, the error is exactly the PTR fragment, whatever the other two wrote. |
| Merge.LostFragments | chick.go:151-187 | An explicit order in which all three lookups fail but only the PTR fragment is reported. |
| Merge.DataIndependentOfOrder | chick.go:151-187 | Two completion orders give records that differ at most in the error message. |
| Presenter.Fields | chick.go:200-215 | Every optional line carries one of the five tags. The lines come in the fixed order PTR Records, Country, Organization, I-Line Servers, Error, with each tag at most once. |
| Presenter.Render | chick.go:193-218 | The output is the header, then one line per populated field, then a closing empty line. Its length counts exactly the populated fields, Country and Organization together. The empty line is the last line and only the last. A PTR Records line, when present, is the second line. An Error line, when present, is the line just before the empty line. |
| Presenter.RenderedOrder | chick.go:200-215 | The exact position of every optional line: PTR Records right after the header, then Country and Organization together, then I-Line Servers, then Error, each showing its value. |
| Presenter.FieldsPresent | chick.go:200-216 | The record has a line for a tag exactly when the field behind that tag is populated. |
| Presenter.RenderedLines | chick.go:200-216 | The PTR Records and I-Line Servers lines appear iff their lists are non-empty. The Country and Organization lines appear iff IP info is present. The Error line appears iff an error is present. |
| Presenter.RenderedValues | chick.go:200-215 | The PTR Records and I-Line Servers lines show their lists joined with ", ". The Country, Organization and Error lines show the record's values. |
| Presenter.HeaderRecordType | chick.go:194-198 | The first line is "<type> Record: <ip>", where the type is "AAAA" exactly for IPv6 records and "A" exactly for the others. |
| Presenter.RenderAll | chick.go:305-307 | The report is empty exactly when there are no records. |
| Presenter.SplitRenderAll | chick.go:217 | Cutting the report after each empty line gives back exactly the rendered records, one block per record, in order. |
| Run.Launch | chick.go:259-278 | Resolution fails only for a hostname whose lookup fails. A literal target gives at most one task, and exactly one, for that address, iff its family passes the filter. For a hostname, the tasks are exactly those of the reference filter `Kept`: one per resolved address that passes the filter, in resolution order. |
| Run.Report | chick.go:305-307 | The report is empty exactly when no task was launched, and it splits into exactly one block per launched task. |
| Run.Execute | chick.go:230-307 | An uninterrupted run fails iff the target is a hostname and either its host lookup or its address lookup fails. A failed host lookup ends the run with "Error: invalid domain or IP address: …" before resolution. A host lookup that succeeds, followed by a failed address lookup, ends it with "Error looking up IP for domain: …". Otherwise the report splits into exactly one block per launched task, and block j is the rendering of the record of the j-th task to reach the collector. |
| Text.Join | chick.go:201 | Like `strings.Join`: the empty list joins to "", one element to itself, and a longer list starts with its first element. |
| Text.JoinSnoc | chick.go:210 | Joining a list with one more element appends the separator and that element to the joined shorter list. |
| Run.TaskResult | chick.go:276 | The record of a launched task carries that task's address and family, and has an error iff one of its lookups failed. |
| Run.Collected | chick.go:280-291 | The collector holds one record per launched task, in arrival order. Record j belongs to the j-th arriving task. |
| Run.ReportBlocks | chick.go:280-307 | The printed report splits into exactly one block per launched task. Block j is the rendering of the record of the j-th task to reach the collector. |
| Run.ReportHeaders | chick.go:194-198 | Block j of the report is headed by the record type (A or AAAA) and address of the j-th arriving task. |
| Run.ReportErrorLines | chick.go:213-215 | Block j of the report shows an Error line iff one of the j-th arriving task's three lookups failed. |
| Run.NonSuccessLikeTransportError | chick.go:132-134 | A decodable I-line answer with a non-`SUCCESS` status acts exactly like a transport error with "failed to get I-line info": the record gets no servers and an error. |
| Run.ThreeFragments | chick.go:165-182 | When all three lookups fail, the fragments are the three messages in completion order. |
| Run.AllFail | chick.go:151-187 | When all three lookups fail, the record has no PTR names, no IP info, no servers, and an error. If PTR completed first, the error holds all three fragments in completion order, separated by "; ". |
| Run.LiteralTargetScenario | chick.go:259-277 | Target 1.2.3.4 with `-4` and every lookup answering gives one IPv4 task. For every completion order, its record has all four fields populated and no error. |
| Run.LiteralTargetFields | chick.go:200-211 | That record's optional lines are PTR Records, Country, Organization and I-Line Servers. The server names are joined as "irc1.example.net, irc2.example.net". |
| Run.LiteralTargetRendering | chick.go:193-218 | That record prints as an A header, the four field lines, no Error line, and the closing empty line. |
| Run.DualStackScenario | chick.go:270-278 | A hostname resolving to one IPv4 and one IPv6 address, with no family switch, launches two tasks, with record types A and AAAA. |

## Left out

- Parsing and DNS: `net.ParseIP`, `To4`, `net.LookupHost`, `net.LookupIP`
  and `net.LookupAddr` are system or library calls. Their results (literal
  or not, address family, host lookup outcome, resolved list, PTR names or
  error) are inputs to the model. `validateInput` itself is modelled by
  `Resolve.Validate`.
- HTTP and JSON: `getIPInfo` (chick.go:85-102) and the request, body reading
  and decoding of `getILineInfo` (chick.go:104-131) are network I/O. The
  model starts from their decoded values or error messages.
- Goroutines, WaitGroups, the buffered channel and the collector: the model
  replaces them with a completion order per task and an arrival order at the
  collector.
- Merge.Fold: does not model the data race on `result.Error` itself. Two
  appending goroutines that both read the old error before either writes can
  drop a fragment in the real program. Only sequential interleavings are
  modelled, because a Go memory-model race cannot be expressed here.
- Signal handling, context cancellation, the 500 ms progress ticker and
  the carriage-return clearing of the progress line (chick.go:240-250,
  293-313) are OS and timing plumbing. So is the "Operation cancelled" exit
  path.
- Argument parsing (kong), the `--timeout` and `--iline-timeout` durations,
  colour escape codes and process exit codes are library wrappers and
  presentation.
- Presenter.Render: assumes no value contains a newline. A line is one
  `Printf`; an error text or an ipinfo `org` value with an embedded `"\n"`
  would print extra lines, and an embedded blank line would cut the real
  output differently from `SplitRecords`.
- Strings are sequences of characters. Go's byte strings and UTF-8 encoding
  are not modelled, and no operation here depends on them.

=== FILE: iline.dfy ===
/** Interpretation of the I-line service's answer (`getILineInfo`,
    chick.go:104-142) from the decoded JSON onwards. The HTTP request, body
    reading and `json.Unmarshal` are outside the model; their failure arrives
    as an `Err` outcome. */
module ILine {
  import opened Wrappers

  /** One element of the `response` array. */
  datatype ServerEntry = ServerEntry(serverName: string)

  /** The decoded body `{status, response[]}`. */
  datatype ILineInfo = ILineInfo(status: string, response: seq<ServerEntry>)

  /** The only status under which the payload is trusted. */
  const SuccessStatus := "SUCCESS"

  /** Message of the error returned for any other status. */
  const StatusError := "failed to get I-line info"

  /** The `serverName`s of the response, one per entry, in order. */
  function ServerNames(response: seq<ServerEntry>): (names: seq<string>)
    ensures |names| == |response|
    ensures forall i :: 0 <= i < |response| ==> names[i] == response[i].serverName
  {
    if |response| == 0 then []
    else ServerNames(response[..|response| - 1]) + [response[|response| - 1].serverName]
  }

  /** Status check and server extraction of a decoded answer. */
  function Interpret(info: ILineInfo): (r: Outcome<seq<string>>)
    ensures r.Err? <==> info.status != SuccessStatus
    ensures r.Err? ==> r.msg == StatusError
    ensures r.Ok? ==> |r.value| == |info.response|
    ensures r.Ok? ==> forall i :: 0 <= i < |info.response| ==> r.value[i] == info.response[i].serverName
  {
    if info.status != SuccessStatus then Err(StatusError)
    else Ok(ServerNames(info.response))
  }

  /** The whole sub-lookup: a transport or decoding error is returned as is,
      a decoded answer is interpreted. */
  function FetchILine(fetched: Outcome<ILineInfo>): (r: Outcome<seq<string>>)
    ensures fetched.Err? ==> r == Err(fetched.msg)
    ensures fetched.Ok? && fetched.value.status == SuccessStatus ==> r == Ok(ServerNames(fetched.value.response))
    ensures fetched.Ok? && fetched.value.status != SuccessStatus ==> r == Err(StatusError)
  {
    match fetched
    case Err(e) => Err(e)
    case Ok(info) => Interpret(info)
  }

  /** A well-formed answer with any status other than exactly "SUCCESS" is an
      error whatever its response array holds. */
  lemma NonSuccessIgnoresResponse(status: string, a: seq<ServerEntry>, b: seq<ServerEntry>)
    requires status != SuccessStatus
    ensures Interpret(ILineInfo(status, a)) == Interpret(ILineInfo(status, b)) == Err(StatusError)
  {
  }

  /** An empty response under "SUCCESS" is a success with no servers, not an
      error. */
  lemma EmptySuccess()
    ensures Interpret(ILineInfo(SuccessStatus, [])) == Ok([])
  {
  }

  /** Status comparison is exact: a lower-case "success" is a failure. */
  lemma StatusIsCaseSensitive(response: seq<ServerEntry>)
    ensures Interpret(ILineInfo("success", response)) == Err(StatusError)
  {
  }
}

=== FILE: merge.dfy ===
/** The per-address enrichment task `lookupIP` (chick.go:144-191). The source
    starts three goroutines (PTR, IP info, I-line) that write into one shared
    `Result` without synchronisation; the model replays their writes one after
    another in a chosen completion order, any permutation of the three, and
    states its properties for every such order. */
module Merge {
  import opened Wrappers
  import opened Text

  /** The decoded ipinfo.io answer. */
  datatype IPInfo = IPInfo(ip: string, country: string, org: string)

  /** The record one task hands to the collector. `error` is the Go `error`
      field, absent when nil. */
  datatype Result = Result(
    ip: string,
    ptr: seq<string>,
    ipInfo: Option<IPInfo>,
    iLine: seq<string>,
    isIPv6: bool,
    error: Option<string>)

  /** The three sub-lookups of one task. */
  datatype SubLookup = Ptr | Info | ILine

  /** What each sub-lookup returned. */
  datatype Outcomes = Outcomes(
    ptr: Outcome<seq<string>>,
    info: Outcome<IPInfo>,
    iLine: Outcome<seq<string>>)

  const PtrPrefix := "error looking up PTR records: "
  const InfoPrefix := "error fetching IP info: "
  const ILinePrefix := "error fetching I-line info: "
  const Separator := "; "

  /** The record before any sub-lookup has written to it. */
  function Initial(ip: string, isIPv6: bool): (r: Result)
    ensures r.ip == ip && r.isIPv6 == isIPv6
    ensures r.ptr == [] && r.ipInfo.None? && r.iLine == [] && r.error.None?
  {
    Result(ip, [], None, [], isIPv6, None)
  }

  predicate Failed(o: Outcomes, s: SubLookup)
  {
    match s
    case Ptr => o.ptr.Err?
    case Info => o.info.Err?
    case ILine => o.iLine.Err?
  }

  /** The text each sub-lookup's failure message starts with. */
  function Prefix(s: SubLookup): string
  {
    match s
    case Ptr => PtrPrefix
    case Info => InfoPrefix
    case ILine => ILinePrefix
  }

  /** The error a failing sub-lookup returned. */
  function Detail(o: Outcomes, s: SubLookup): string
    requires Failed(o, s)
  {
    match s
    case Ptr => o.ptr.msg
    case Info => o.info.msg
    case ILine => o.iLine.msg
  }

  /** The message a failing sub-lookup contributes: its prefix followed by
      the error it returned. */
  function Fragment(o: Outcomes, s: SubLookup): (r: string)
    requires Failed(o, s)
    ensures |Prefix(s)| <= |r|
    ensures r[..|Prefix(s)|] == Prefix(s)
    ensures r[|Prefix(s)|..] == Detail(o, s)
  {
    match s
    case Ptr => PtrPrefix + o.ptr.msg
    case Info => InfoPrefix + o.info.msg
    case ILine => ILinePrefix + o.iLine.msg
  }

  /** The sub-lookup a failure message comes from, read off its prefix;
      `None` for a message with none of the three prefixes. */
  function Origin(message: string): (s: Option<SubLookup>)
    ensures s.Some? ==> StartsWith(message, Prefix(s.value))
    ensures s.None? ==> forall l: SubLookup :: !StartsWith(message, Prefix(l))
  {
    if StartsWith(message, PtrPrefix) then Some(Ptr)
    else if StartsWith(message, InfoPrefix) then Some(Info)
    else if StartsWith(message, ILinePrefix) then Some(ILine)
    else None
  }

  /** A fragment names its sub-lookup unambiguously: no prefix is a prefix of
      another's message, so the sub-lookup and its error are recovered from
      the fragment. */
  lemma FragmentOrigin(o: Outcomes, s: SubLookup)
    requires Failed(o, s)
    ensures Origin(Fragment(o, s)) == Some(s)
    ensures Fragment(o, s)[|Prefix(s)|..] == Detail(o, s)
  {
    var m := Fragment(o, s);
    match s
    case Ptr =>
    case Info =>
      assert m[6] == InfoPrefix[6] != PtrPrefix[6];
    case ILine =>
      assert m[6] == ILinePrefix[6] != PtrPrefix[6];
      assert m[16] == ILinePrefix[16] != InfoPrefix[16];
  }

  /** The IP-info and I-line branches: the bare fragment when there was no
      error yet, otherwise the previous message, "; ", and the fragment. */
  function Appended(prev: Option<string>, fragment: string): (r: string)
    ensures prev.None? ==> r == fragment
    ensures prev.Some? ==> |r| == |prev.value| + |Separator| + |fragment|
    ensures prev.Some? ==> r[..|prev.value|] == prev.value
    ensures prev.Some? ==> r[|prev.value|..|prev.value| + |Separator|] == Separator
    ensures r[|r| - |fragment|..] == fragment
  {
    match prev
    case None => fragment
    case Some(e) => e + Separator + fragment
  }

  /** The write one sub-lookup's goroutine performs when it completes. The
      PTR branch replaces the error; the other two append to it. */
  function Apply(r: Result, o: Outcomes, s: SubLookup): (r': Result)
    ensures r'.ip == r.ip && r'.isIPv6 == r.isIPv6
    ensures r'.ptr == (if s == Ptr && o.ptr.Ok? then o.ptr.value else r.ptr)
    ensures r'.ipInfo == (if s == Info && o.info.Ok? then Some(o.info.value) else r.ipInfo)
    ensures r'.iLine == (if s == ILine && o.iLine.Ok? then o.iLine.value else r.iLine)
    ensures !Failed(o, s) ==> r'.error == r.error
    ensures Failed(o, s) ==> r'.error.Some?
    ensures Failed(o, s) && s == Ptr ==> r'.error == Some(Fragment(o, s))
    ensures Failed(o, s) && s != Ptr ==> r'.error == Some(Appended(r.error, Fragment(o, s)))
    ensures Failed(o, s) && s != Ptr && r.error.Some? ==>
              |r.error.value| <= |r'.error.value| && r'.error.value[..|r.error.value|] == r.error.value
  {
    match s
    case Ptr =>
      if o.ptr.Err? then r.(error := Some(PtrPrefix + o.ptr.msg))
      else r.(ptr := o.ptr.value)
    case Info =>
      if o.info.Err? then r.(error := Some(Appended(r.error, InfoPrefix + o.info.msg)))
      else r.(ipInfo := Some(o.info.value))
    case ILine =>
      if o.iLine.Err? then r.(error := Some(Appended(r.error, ILinePrefix + o.iLine.msg)))
      else r.(iLine := o.iLine.value)
  }

  /** The writes of the sub-lookups in `order`, the order they complete in. */
  function Fold(r: Result, o: Outcomes, order: seq<SubLookup>): (r': Result)
    ensures r'.ip == r.ip && r'.isIPv6 == r.isIPv6
    ensures r'.ptr == (if Ptr in order && o.ptr.Ok? then o.ptr.value else r.ptr)
    ensures r'.ipInfo == (if Info in order && o.info.Ok? then Some(o.info.value) else r.ipInfo)
    ensures r'.iLine == (if ILine in order && o.iLine.Ok? then o.iLine.value else r.iLine)
    ensures (forall k :: 0 <= k < |order| ==> !Failed(o, order[k])) ==> r'.error == r.error
    ensures (exists k :: 0 <= k < |order| && Failed(o, order[k])) ==> r'.error.Some?
  {
    if |order| == 0 then r
    else
      var init := order[..|order| - 1];
      assert order == init + [order[|order| - 1]];
      Apply(Fold(r, o, init), o, order[|order| - 1])
  }

  /** A completion order of the three goroutines: each finishes exactly once. */
  predicate IsCompletionOrder(order: seq<SubLookup>)
  {
    |order| == 3 && Ptr in order && Info in order && ILine in order
  }

  predicate AllSucceeded(o: Outcomes)
  {
    o.ptr.Ok? && o.info.Ok? && o.iLine.Ok?
  }

  /** The record `lookupIP` sends once all three sub-lookups have completed
      in `order`. */
  function LookupIP(ip: string, isIPv6: bool, o: Outcomes, order: seq<SubLookup>): (r: Result)
    requires IsCompletionOrder(order)
    ensures r.ip == ip && r.isIPv6 == isIPv6
    ensures r.ptr == (if o.ptr.Ok? then o.ptr.value else [])
    ensures r.ipInfo == (if o.info.Ok? then Some(o.info.value) else None)
    ensures r.iLine == (if o.iLine.Ok? then o.iLine.value else [])
    ensures r.error.None? <==> AllSucceeded(o)
  {
    assert !AllSucceeded(o) ==> exists k :: 0 <= k < |order| && Failed(o, order[k]) by {
      if !AllSucceeded(o) {
        var s := if o.ptr.Err? then Ptr else if o.info.Err? then Info else ILine;
        var k :| 0 <= k < |order| && order[k] == s;
        assert Failed(o, order[k]);
      }
    }
    Fold(Initial(ip, isIPv6), o, order)
  }

  // ---------------------------------------------------------------------
  // Reference description of the final error message

  /** The fragments of the failing sub-lookups of `order`, in order. */
  function FailureFragments(o: Outcomes, order: seq<SubLookup>): seq<string>
  {
    if |order| == 0 then []
    else
      var s := order[|order| - 1];
      FailureFragments(o, order[..|order| - 1]) + (if Failed(o, s) then [Fragment(o, s)] else [])
  }

  /** Position of the last PTR completion in `order`, or 0 if there is none. */
  function LastPtr(order: seq<SubLookup>): (k: nat)
    ensures |order| > 0 ==> k < |order|
    ensures Ptr in order ==> order[k] == Ptr
    ensures forall j :: k < j < |order| ==> order[j] != Ptr
  {
    if |order| == 0 then 0
    else if order[|order| - 1] == Ptr then |order| - 1
    else LastPtr(order[..|order| - 1])
  }

  /** Where the surviving part of the message starts: a failing PTR write
      discards everything before it. */
  function ResetPoint(o: Outcomes, order: seq<SubLookup>): (k: nat)
    ensures k <= |order|
  {
    if o.ptr.Err? then LastPtr(order) else 0
  }

  /** The error the record ends with: the fragments written since the last
      failing PTR completion, joined with "; ", or none if there are none. */
  function SurvivingError(o: Outcomes, order: seq<SubLookup>): Option<string>
  {
    var frags := FailureFragments(o, order[ResetPoint(o, order)..]);
    if |frags| == 0 then None else Some(Join(frags, Separator))
  }

  /** Completing one more sub-lookup adds its fragment, if it failed, at the
      end. */
  lemma FailureFragmentsSnoc(o: Outcomes, xs: seq<SubLookup>, s: SubLookup)
    ensures FailureFragments(o, xs + [s]) ==
            FailureFragments(o, xs) + (if Failed(o, s) then [Fragment(o, s)] else [])
  {
    assert (xs + [s])[..|xs|] == xs;
  }

  /** Only a failing PTR completion moves the reset point. */
  lemma ResetPointSnoc(o: Outcomes, xs: seq<SubLookup>, s: SubLookup)
    ensures ResetPoint(o, xs + [s]) == (if s == Ptr && o.ptr.Err? then |xs| else ResetPoint(o, xs))
  {
    assert (xs + [s])[..|xs|] == xs;
  }

  /** The error after one more write, in terms of the error before it. */
  lemma SurvivingErrorSnoc(o: Outcomes, xs: seq<SubLookup>, s: SubLookup)
    ensures SurvivingError(o, xs + [s]) ==
            if s == Ptr && o.ptr.Err? then Some(Fragment(o, s))
            else if Failed(o, s) then Some(Appended(SurvivingError(o, xs), Fragment(o, s)))
            else SurvivingError(o, xs)
  {
    ResetPointSnoc(o, xs, s);
    var order := xs + [s];
    if s == Ptr && o.ptr.Err? {
      assert order[|xs|..] == [] + [s];
      FailureFragmentsSnoc(o, [], s);
    } else {
      var k := ResetPoint(o, xs);
      assert order[k..] == xs[k..] + [s];
      FailureFragmentsSnoc(o, xs[k..], s);
      var frags := FailureFragments(o, xs[k..]);
      if !Failed(o, s) {
        assert FailureFragments(o, order[k..]) == frags;
      } else if |frags| == 0 {
        assert FailureFragments(o, order[k..]) == [Fragment(o, s)];
      } else {
        JoinSnoc(frags, Fragment(o, s), Separator);
      }
    }
  }

  /** The fold produces exactly the reference error, for every order,
      including orders that repeat or omit sub-lookups. */
  lemma {:induction false} FoldError(r: Result, o: Outcomes, order: seq<SubLookup>)
    requires r.error.None?
    ensures Fold(r, o, order).error == SurvivingError(o, order)
    decreases |order|
  {
    if |order| == 0 {
      assert FailureFragments(o, order[ResetPoint(o, order)..]) == [];
    } else {
      var init := order[..|order| - 1];
      var s := order[|order| - 1];
      assert order == init + [s];
      FoldError(r, o, init);
      SurvivingErrorSnoc(o, init, s);
    }
  }

  /** In a completion order every sub-lookup appears exactly once. */
  lemma CompletionOrderDistinct(order: seq<SubLookup>)
    requires IsCompletionOrder(order)
    ensures order[0] != order[1] && order[0] != order[2] && order[1] != order[2]
  {
  }

  /** When the PTR lookup succeeds, or completes first, no fragment is lost:
      the error is every failing sub-lookup's fragment in completion order. */
  lemma AllFragmentsSurvive(ip: string, isIPv6: bool, o: Outcomes, order: seq<SubLookup>)
    requires IsCompletionOrder(order)
    requires o.ptr.Ok? || order[0] == Ptr
    ensures var frags := FailureFragments(o, order);
            LookupIP(ip, isIPv6, o, order).error == (if |frags| == 0 then None else Some(Join(frags, Separator)))
  {
    FoldError(Initial(ip, isIPv6), o, order);
    if o.ptr.Err? {
      CompletionOrderDistinct(order);
      assert order[..2][..1] == [Ptr];
      assert LastPtr(order) == 0;
    }
    assert order[0..] == order;
  }

  /** When the PTR lookup fails and completes last, its message replaces
      whatever the other two wrote: their fragments are lost. */
  lemma PtrLastOverwrites(ip: string, isIPv6: bool, o: Outcomes, order: seq<SubLookup>)
    requires IsCompletionOrder(order)
    requires o.ptr.Err? && order[2] == Ptr
    ensures LookupIP(ip, isIPv6, o, order).error == Some(PtrPrefix + o.ptr.msg)
  {
    FoldError(Initial(ip, isIPv6), o, order);
    assert order[2..] == [Ptr];
    assert FailureFragments(o, [Ptr]) == [Fragment(o, Ptr)] by {
      assert [Ptr][..0] == [];
    }
  }

  /** One concrete run in which all three lookups fail but only the PTR
      fragment is reported: the three fragments do not always survive. */
  lemma LostFragments()
    ensures var o := Outcomes(Err("a"), Err("b"), Err("c"));
            var r := LookupIP("192.0.2.1", false, o, [Info, ILine, Ptr]);
            r.error == Some("error looking up PTR records: a")
  {
    assert PtrPrefix + "a" == "error looking up PTR records: a";
    PtrLastOverwrites("192.0.2.1", false, Outcomes(Err("a"), Err("b"), Err("c")), [Info, ILine, Ptr]);
  }

  /** The data fields do not depend on the completion order; only the error
      message can. */
  lemma DataIndependentOfOrder(ip: string, isIPv6: bool, o: Outcomes, order1: seq<SubLookup>, order2: seq<SubLookup>)
    requires IsCompletionOrder(order1) && IsCompletionOrder(order2)
    ensures LookupIP(ip, isIPv6, o, order1).(error := None) == LookupIP(ip, isIPv6, o, order2).(error := None)
  {
  }
}

=== FILE: presenter.dfy ===
/** `printResult` (chick.go:193-218) as a pure function from a record to the
    lines it prints, and the report loop of `main` (chick.go:305-307) that
    prints every collected record. Colour wrappers are the identity; a line
    is modelled without its terminating newline, and `fmt.Println()` is the
    empty line. */
module Presenter {
  import opened Wrappers
  import opened Text
  import opened Merge

  const PtrTag := "PTR Records"
  const CountryTag := "Country"
  const OrgTag := "Organization"
  const ILineTag := "I-Line Servers"
  const ErrorTag := "Error"
  const ListSeparator := ", "

  /** The tags of the optional lines of a record. */
  predicate ReportTag(t: string)
  {
    t == PtrTag || t == CountryTag || t == OrgTag || t == ILineTag || t == ErrorTag
  }

  /** One optional `tag: value` line of a record. */
  datatype Field = Field(tag: string, value: string)

  /** DNS record type of the address: AAAA for IPv6, A otherwise. */
  function RecordType(isIPv6: bool): string
  {
    if isIPv6 then "AAAA" else "A"
  }

  function Header(r: Result): string
  {
    RecordType(r.isIPv6) + " Record: " + r.ip
  }

  /** An indented `tag: value` line. */
  function Line(f: Field): string
  {
    "  " + f.tag + ": " + f.value
  }

  /** Whether the record field behind `tag` is populated. */
  predicate Populated(r: Result, tag: string)
  {
    if tag == PtrTag then |r.ptr| > 0
    else if tag == CountryTag || tag == OrgTag then r.ipInfo.Some?
    else if tag == ILineTag then |r.iLine| > 0
    else if tag == ErrorTag then r.error.Some?
    else false
  }

  function PtrFields(r: Result): seq<Field>
  {
    if |r.ptr| > 0 then [Field(PtrTag, Join(r.ptr, ListSeparator))] else []
  }

  function InfoFields(r: Result): seq<Field>
  {
    match r.ipInfo
    case Some(info) => [Field(CountryTag, info.country), Field(OrgTag, info.org)]
    case None => []
  }

  function ILineFields(r: Result): seq<Field>
  {
    if |r.iLine| > 0 then [Field(ILineTag, Join(r.iLine, ListSeparator))] else []
  }

  function ErrorFields(r: Result): seq<Field>
  {
    match r.error
    case Some(e) => [Field(ErrorTag, e)]
    case None => []
  }

  /** Position of a tag in the order `printResult` writes its lines. */
  function TagRank(t: string): nat
  {
    if t == PtrTag then 0
    else if t == CountryTag then 1
    else if t == OrgTag then 2
    else if t == ILineTag then 3
    else 4
  }

  /** The optional lines of a record, in the order `printResult` writes them:
      PTR Records, Country, Organization, I-Line Servers, Error, each at most
      once. */
  function Fields(r: Result): (fs: seq<Field>)
    ensures forall f :: f in fs ==> ReportTag(f.tag)
    ensures forall i, j :: 0 <= i < j < |fs| ==> TagRank(fs[i].tag) < TagRank(fs[j].tag)
  {
    PartsRanked(r);
    (PtrFields(r) + InfoFields(r)) + (ILineFields(r) + ErrorFields(r))
  }

  /** The four groups of optional lines, concatenated, are ranked. */
  lemma PartsRanked(r: Result)
    ensures Ranked((PtrFields(r) + InfoFields(r)) + (ILineFields(r) + ErrorFields(r)), 0, 4)
  {
    TagRanks();
    RankedConcat(PtrFields(r), InfoFields(r), 0, 0, 2);
    RankedConcat(ILineFields(r), ErrorFields(r), 3, 3, 4);
    RankedConcat(PtrFields(r) + InfoFields(r), ILineFields(r) + ErrorFields(r), 0, 2, 4);
  }

  /** Each tag has its own rank; the tags differ in length. */
  lemma TagRanks()
    ensures TagRank(PtrTag) == 0 && TagRank(CountryTag) == 1 && TagRank(OrgTag) == 2
    ensures TagRank(ILineTag) == 3 && TagRank(ErrorTag) == 4
  {
    assert |PtrTag| == 11 && |CountryTag| == 7 && |OrgTag| == 12 && |ILineTag| == 14 && |ErrorTag| == 5;
  }

  /** Fields whose ranks strictly increase. */
  predicate Ranked(fs: seq<Field>, lo: nat, hi: nat)
  {
    && (forall f :: f in fs ==> ReportTag(f.tag) && lo <= TagRank(f.tag) <= hi)
    && (forall i, j :: 0 <= i < j < |fs| ==> TagRank(fs[i].tag) < TagRank(fs[j].tag))
  }

  /** Two ranked runs, the first entirely below the second, concatenate to a
      ranked run. */
  lemma RankedConcat(a: seq<Field>, b: seq<Field>, lo: nat, mid: nat, hi: nat)
    requires lo <= mid < hi
    requires Ranked(a, lo, mid) && Ranked(b, mid + 1, hi)
    ensures Ranked(a + b, lo, hi)
  {
    var c := a + b;
    forall f | f in c
      ensures ReportTag(f.tag) && lo <= TagRank(f.tag) <= hi
    {
      if f !in a {
        assert f in b;
      }
    }
    forall i, j | 0 <= i < j < |c|
      ensures TagRank(c[i].tag) < TagRank(c[j].tag)
    {
      if j < |a| {
        assert c[i] == a[i] && c[j] == a[j];
      } else if i < |a| {
        assert c[i] == a[i] && a[i] in a;
        assert c[j] == b[j - |a|] && b[j - |a|] in b;
      } else {
        assert c[i] == b[i - |a|] && c[j] == b[j - |a|];
      }
    }
  }

  /** A record has a field for `tag` exactly when that field is populated. */
  lemma FieldsPresent(r: Result, tag: string)
    requires ReportTag(tag)
    ensures (exists f :: f in Fields(r) && f.tag == tag) <==> Populated(r, tag)
  {
    assert forall f :: f in Fields(r) <==> f in PtrFields(r) || f in InfoFields(r) || f in ILineFields(r) || f in ErrorFields(r);
    if Populated(r, tag) {
      if tag == PtrTag {
        assert PtrFields(r)[0] in Fields(r);
      } else if tag == CountryTag {
        assert InfoFields(r)[0] in Fields(r);
      } else if tag == OrgTag {
        assert InfoFields(r)[1] in Fields(r);
      } else if tag == ILineTag {
        assert ILineFields(r)[0] in Fields(r);
      } else {
        assert ErrorFields(r)[0] in Fields(r);
      }
    }
  }

  /** A record's lines: the header, one line per field, and a closing
      empty line. */
  function Layout(header: string, fs: seq<Field>): (lines: seq<string>)
    ensures |lines| == |fs| + 2
    ensures lines[0] == header
    ensures lines[|lines| - 1] == ""
    ensures forall i :: 0 <= i < |fs| ==> lines[i + 1] == Line(fs[i])
  {
    [header] + seq(|fs|, i requires 0 <= i < |fs| => Line(fs[i])) + [""]
  }

  /** Where each optional line sits among a record's fields. */
  lemma FieldPositions(r: Result)
    ensures var fs := Fields(r);
            && |fs| == (if |r.ptr| > 0 then 1 else 0) + (if r.ipInfo.Some? then 2 else 0)
                       + (if |r.iLine| > 0 then 1 else 0) + (if r.error.Some? then 1 else 0)
            && (|r.ptr| > 0 ==> fs[0] == Field(PtrTag, Join(r.ptr, ListSeparator)))
            && (r.ipInfo.Some? ==>
                  var at := if |r.ptr| > 0 then 1 else 0;
                  fs[at] == Field(CountryTag, r.ipInfo.value.country) && fs[at + 1] == Field(OrgTag, r.ipInfo.value.org))
            && (|r.iLine| > 0 ==>
                  fs[|fs| - (if r.error.Some? then 2 else 1)] == Field(ILineTag, Join(r.iLine, ListSeparator)))
            && (r.error.Some? ==> fs[|fs| - 1] == Field(ErrorTag, r.error.value))
  {
    var front := PtrFields(r) + InfoFields(r);
    var back := ILineFields(r) + ErrorFields(r);
    assert Fields(r) == front + back;
  }

  /** A record's lines: header first, the empty line last and only last,
      and one line per populated field in between. */
  lemma LayoutShape(r: Result)
    ensures var lines := Layout(Header(r), Fields(r));
            && |lines| == 2 + (if |r.ptr| > 0 then 1 else 0) + (if r.ipInfo.Some? then 2 else 0)
                            + (if |r.iLine| > 0 then 1 else 0) + (if r.error.Some? then 1 else 0)
            && lines[0] == Header(r)
            && lines[|lines| - 1] == ""
            && forall i :: 0 <= i < |lines| - 1 ==> lines[i] != ""
  {
    var fs := Fields(r);
    var lines := Layout(Header(r), fs);
    FieldPositions(r);
    assert forall i :: 0 < i < |lines| - 1 ==> lines[i] == Line(fs[i - 1]) && |lines[i]| > 0;
  }

  /** Where each optional line sits among a record's lines. */
  lemma LayoutPositions(r: Result)
    ensures var lines := Layout(Header(r), Fields(r));
            && (|r.ptr| > 0 ==> lines[1] == Line(Field(PtrTag, Join(r.ptr, ListSeparator))))
            && (r.ipInfo.Some? ==>
                  var at := if |r.ptr| > 0 then 2 else 1;
                  && lines[at] == Line(Field(CountryTag, r.ipInfo.value.country))
                  && lines[at + 1] == Line(Field(OrgTag, r.ipInfo.value.org)))
            && (|r.iLine| > 0 ==>
                  lines[|lines| - (if r.error.Some? then 3 else 2)] == Line(Field(ILineTag, Join(r.iLine, ListSeparator))))
            && (r.error.Some? ==> lines[|lines| - 2] == Line(Field(ErrorTag, r.error.value)))
  {
    FieldPositions(r);
  }

  /** The lines `printResult` writes for one record. */
  function Render(r: Result): (lines: seq<string>)
    ensures |lines| == 2 + (if |r.ptr| > 0 then 1 else 0) + (if r.ipInfo.Some? then 2 else 0)
                         + (if |r.iLine| > 0 then 1 else 0) + (if r.error.Some? then 1 else 0)
    ensures lines[0] == Header(r)
    ensures lines[|lines| - 1] == ""
    ensures forall i :: 0 <= i < |lines| - 1 ==> lines[i] != ""
    ensures |r.ptr| > 0 ==> lines[1] == Line(Field(PtrTag, Join(r.ptr, ListSeparator)))
    ensures r.error.Some? ==> lines[|lines| - 2] == Line(Field(ErrorTag, r.error.value))
  {
    var lines := Layout(Header(r), Fields(r));
    LayoutFacts(r, lines);
    lines
  }

  /** The facts about a record's layout that `Render` promises. */
  lemma LayoutFacts(r: Result, lines: seq<string>)
    requires lines == Layout(Header(r), Fields(r))
    ensures |lines| == 2 + (if |r.ptr| > 0 then 1 else 0) + (if r.ipInfo.Some? then 2 else 0)
                         + (if |r.iLine| > 0 then 1 else 0) + (if r.error.Some? then 1 else 0)
    ensures lines[0] == Header(r)
    ensures lines[|lines| - 1] == ""
    ensures forall i :: 0 <= i < |lines| - 1 ==> lines[i] != ""
    ensures |r.ptr| > 0 ==> lines[1] == Line(Field(PtrTag, Join(r.ptr, ListSeparator)))
    ensures r.error.Some? ==> lines[|lines| - 2] == Line(Field(ErrorTag, r.error.value))
  {
    LayoutShape(r);
    LayoutPositions(r);
  }

  /** The printed order of the optional lines: PTR Records right after the
      header, then Country and Organization, then I-Line Servers, and the
      Error line just before the closing empty line. */
  lemma RenderedOrder(r: Result)
    ensures var lines := Render(r);
            && (|r.ptr| > 0 ==> lines[1] == Line(Field(PtrTag, Join(r.ptr, ListSeparator))))
            && (r.ipInfo.Some? ==>
                  var at := if |r.ptr| > 0 then 2 else 1;
                  && lines[at] == Line(Field(CountryTag, r.ipInfo.value.country))
                  && lines[at + 1] == Line(Field(OrgTag, r.ipInfo.value.org)))
            && (|r.iLine| > 0 ==>
                  lines[|lines| - (if r.error.Some? then 3 else 2)] == Line(Field(ILineTag, Join(r.iLine, ListSeparator))))
            && (r.error.Some? ==> lines[|lines| - 2] == Line(Field(ErrorTag, r.error.value)))
  {
    LayoutPositions(r);
  }

  /** Whether `line` is a `tag: value` line for `tag`. */
  predicate HasTag(line: string, tag: string)
  {
    StartsWith(line, "  " + tag + ": ")
  }

  /** Whether some line of `lines` carries `tag`. */
  predicate Shows(lines: seq<string>, tag: string)
  {
    exists i :: 0 <= i < |lines| && HasTag(lines[i], tag)
  }

  /** The tags of the report start with distinct letters, so a field's line
      carries its own tag and no other. */
  lemma LineTag(f: Field, tag: string)
    requires ReportTag(f.tag) && ReportTag(tag)
    ensures HasTag(Line(f), tag) <==> f.tag == tag
  {
    var line := Line(f);
    assert line[..|f.tag| + 4] == "  " + f.tag + ": ";
    assert line[2] == f.tag[0];
    if HasTag(line, tag) {
      assert line[..|tag| + 4][2] == tag[0];
    }
  }

  /** A header starts with the record type, so it carries no tag. */
  lemma HeaderUntagged(h: string, tag: string)
    requires |h| > 0 && h[0] == 'A'
    ensures !HasTag(h, tag)
  {
    if |h| >= |tag| + 4 {
      assert h[..|tag| + 4][0] == h[0];
    }
  }

  /** In a record's layout a tagged line is shown exactly when there is a
      field with that tag. */
  lemma ShowsIffField(h: string, fs: seq<Field>, tag: string)
    requires |h| > 0 && h[0] == 'A'
    requires forall f :: f in fs ==> ReportTag(f.tag)
    requires ReportTag(tag)
    ensures Shows(Layout(h, fs), tag) <==> exists f :: f in fs && f.tag == tag
  {
    var lines := Layout(h, fs);
    if Shows(lines, tag) {
      var i :| 0 <= i < |lines| && HasTag(lines[i], tag);
      if i == 0 {
        HeaderUntagged(h, tag);
      } else if i < |lines| - 1 {
        LineTag(fs[i - 1], tag);
        assert fs[i - 1] in fs;
      }
    }
    if exists f :: f in fs && f.tag == tag {
      var f :| f in fs && f.tag == tag;
      var j :| 0 <= j < |fs| && fs[j] == f;
      assert lines[j + 1] == Line(f);
      LineTag(f, tag);
    }
  }

  /** Every field of a layout is printed as its line. */
  lemma LayoutHasLines(h: string, fs: seq<Field>)
    ensures forall f :: f in fs ==> Line(f) in Layout(h, fs)
  {
    forall f | f in fs
      ensures Line(f) in Layout(h, fs)
    {
      var j :| 0 <= j < |fs| && fs[j] == f;
      assert Layout(h, fs)[j + 1] == Line(f);
    }
  }

  /** The line for `tag` appears exactly when its field is populated. */
  lemma RenderedTag(r: Result, tag: string)
    requires ReportTag(tag)
    ensures Shows(Render(r), tag) <==> Populated(r, tag)
  {
    var h, fs := Header(r), Fields(r);
    assert Render(r) == Layout(h, fs);
    assert h[0] == 'A';
    ShowsIffField(h, fs, tag);
    FieldsPresent(r, tag);
  }

  /** Each optional line appears exactly when its field is populated. */
  lemma RenderedLines(r: Result)
    ensures Shows(Render(r), PtrTag) <==> |r.ptr| > 0
    ensures Shows(Render(r), CountryTag) <==> r.ipInfo.Some?
    ensures Shows(Render(r), OrgTag) <==> r.ipInfo.Some?
    ensures Shows(Render(r), ILineTag) <==> |r.iLine| > 0
    ensures Shows(Render(r), ErrorTag) <==> r.error.Some?
  {
    RenderedTag(r, PtrTag);
    RenderedTag(r, CountryTag);
    RenderedTag(r, OrgTag);
    RenderedTag(r, ILineTag);
    RenderedTag(r, ErrorTag);
  }

  /** The optional lines carry the record's values; the PTR and I-line lists
      are joined with ", ". */
  lemma RenderedValues(r: Result)
    ensures |r.ptr| > 0 ==> Line(Field(PtrTag, Join(r.ptr, ListSeparator))) in Render(r)
    ensures r.ipInfo.Some? ==> Line(Field(CountryTag, r.ipInfo.value.country)) in Render(r)
    ensures r.ipInfo.Some? ==> Line(Field(OrgTag, r.ipInfo.value.org)) in Render(r)
    ensures |r.iLine| > 0 ==> Line(Field(ILineTag, Join(r.iLine, ListSeparator))) in Render(r)
    ensures r.error.Some? ==> Line(Field(ErrorTag, r.error.value)) in Render(r)
  {
    var h, fs := Header(r), Fields(r);
    assert Render(r) == Layout(h, fs);
    LayoutHasLines(h, fs);
    assert forall f :: f in PtrFields(r) + InfoFields(r) + ILineFields(r) + ErrorFields(r) ==> f in fs;
  }

  /** The header names the record type AAAA exactly for IPv6 records. */
  lemma HeaderRecordType(r: Result)
    ensures Render(r)[0] == RecordType(r.isIPv6) + " Record: " + r.ip
    ensures RecordType(r.isIPv6) == "AAAA" <==> r.isIPv6
    ensures RecordType(r.isIPv6) == "A" <==> !r.isIPv6
  {
    assert Render(r)[0] == Header(r);
  }

  /** The report: every collected record, in collection order. */
  function RenderAll(results: seq<Result>): (lines: seq<string>)
    ensures |results| == 0 <==> |lines| == 0
  {
    if |results| == 0 then [] else Render(results[0]) + RenderAll(results[1..])
  }

  /** Index of the first empty line, or `|lines|` if there is none. */
  function FirstBlank(lines: seq<string>): (k: nat)
    ensures k <= |lines|
    ensures k < |lines| ==> lines[k] == ""
    ensures forall i :: 0 <= i < k ==> lines[i] != ""
  {
    if |lines| == 0 then 0
    else if lines[0] == "" then 0
    else 1 + FirstBlank(lines[1..])
  }

  /** Cuts a report back into records, each ending at its empty line. */
  function SplitRecords(lines: seq<string>): seq<seq<string>>
    decreases |lines|
  {
    if |lines| == 0 then []
    else
      var k := FirstBlank(lines);
      if k == |lines| then [lines]
      else [lines[..k + 1]] + SplitRecords(lines[k + 1..])
  }

  /** The first empty line of a record followed by anything is its last. */
  lemma FirstBlankOfRecord(r: Result, rest: seq<string>)
    ensures FirstBlank(Render(r) + rest) == |Render(r)| - 1
  {
    var block := Render(r);
    var lines := block + rest;
    assert forall i :: 0 <= i < |block| ==> lines[i] == block[i];
  }

  /** The report can be cut back into the records that produced it: every
      record is one block, in order, and nothing else is. */
  lemma {:induction false} SplitRenderAll(results: seq<Result>)
    ensures |SplitRecords(RenderAll(results))| == |results|
    ensures forall i :: 0 <= i < |results| ==> SplitRecords(RenderAll(results))[i] == Render(results[i])
    decreases |results|
  {
    if |results| > 0 {
      var block := Render(results[0]);
      var rest := RenderAll(results[1..]);
      FirstBlankOfRecord(results[0], rest);
      assert (block + rest)[..|block|] == block;
      assert (block + rest)[|block|..] == rest;
      SplitRenderAll(results[1..]);
    }
  }
}

=== FILE: resolve.dfy ===
/** Target validation (`validateInput` and its exit, chick.go:220-236) and
    the address resolver of `main` (chick.go:252-278): the list of candidate
    addresses for the target and the address-family filter that decides which
    of them get an enrichment task. Parsing (`net.ParseIP`, `To4`) and DNS
    resolution (`net.LookupHost`, `net.LookupIP`) are outside the model: their results arrive
    as values. */
module Resolve {
  import opened Wrappers

  /** IPv4 when `ip.To4()` succeeds, IPv6 otherwise. */
  datatype Family = IPv4 | IPv6

  /** One resolved address: its textual form (`ip.String()`) and its family. */
  datatype Address = Address(text: string, family: Family)

  /** The `-4` and `-6` command-line switches. */
  datatype Flags = Flags(ipv4: bool, ipv6: bool)

  /** The arguments one `lookupIP` goroutine is started with. */
  datatype Task = Task(ip: string, isIPv6: bool)

  const LookupFailedLabel := "Error looking up IP for domain"
  const InvalidTargetLabel := "Error"
  const InvalidTargetPrefix := "invalid domain or IP address: "

  /** `validateInput` and the exit that follows it in `main`: a target that
      parses as an IP is accepted; otherwise the host lookup decides, and
      its error becomes the fatal "Error: invalid domain or IP address: …"
      message. The addresses the host lookup found are discarded. */
  function Validate(literal: Option<Address>, hostLookup: Outcome<seq<string>>): (r: Option<string>)
    ensures r.Some? <==> literal.None? && hostLookup.Err?
    ensures r.Some? ==> r.value == InvalidTargetLabel + ": " + InvalidTargetPrefix + hostLookup.msg
  {
    if literal.Some? then None
    else
      match hostLookup
      case Ok(_) => None
      case Err(e) => Some(InvalidTargetLabel + ": " + InvalidTargetPrefix + e)
  }

  /** The addresses the run works on: the literal itself when the target
      parsed as an IP, otherwise what forward resolution returned; a failed
      resolution ends the run with its message. */
  function Targets(literal: Option<Address>, lookup: Outcome<seq<Address>>): (r: Outcome<seq<Address>>)
    ensures literal.Some? ==> r == Ok([literal.value])
    ensures literal.None? && lookup.Ok? ==> r == lookup
    ensures literal.None? && lookup.Err? ==>
              r.Err? && r.msg == LookupFailedLabel + ": " + lookup.msg
  {
    match literal
    case Some(a) => Ok([a])
    case None =>
      match lookup
      case Ok(ips) => Ok(ips)
      case Err(e) => Err(LookupFailedLabel + ": " + e)
  }

  /** The filter condition of the launch loop: with neither switch or both,
      every address is kept; with one switch, exactly the addresses of its
      family. */
  predicate Keep(f: Flags, a: Address)
    ensures f.ipv4 == f.ipv6 ==> Keep(f, a)
    ensures f.ipv4 && !f.ipv6 ==> (Keep(f, a) <==> a.family == IPv4)
    ensures f.ipv6 && !f.ipv4 ==> (Keep(f, a) <==> a.family == IPv6)
  {
    var isIPv6 := a.family == IPv6;
    (f.ipv4 && !isIPv6) || (f.ipv6 && isIPv6) || (!f.ipv4 && !f.ipv6)
  }

  function TaskFor(a: Address): (t: Task)
    ensures t.ip == a.text
    ensures t.isIPv6 <==> a.family == IPv6
  {
    Task(a.text, a.family == IPv6)
  }

  /** Reference definition of the launched tasks: one per kept address, in
      input order. */
  function Kept(f: Flags, ips: seq<Address>): seq<Task>
  {
    if |ips| == 0 then []
    else
      var last := ips[|ips| - 1];
      Kept(f, ips[..|ips| - 1]) + (if Keep(f, last) then [TaskFor(last)] else [])
  }

  /** Number of addresses of family `fam`. */
  function CountFamily(ips: seq<Address>, fam: Family): nat
  {
    if |ips| == 0 then 0
    else CountFamily(ips[..|ips| - 1], fam) + (if ips[|ips| - 1].family == fam then 1 else 0)
  }

  /** The launch loop of `main`: walks the addresses in order, starts one task
      per address passing the filter and counts them in `totalIPs`. */
  method LaunchTasks(f: Flags, ips: seq<Address>) returns (tasks: seq<Task>, totalIPs: nat)
    ensures tasks == Kept(f, ips)
    ensures totalIPs == |tasks|
    ensures forall t :: t in tasks ==> exists a :: a in ips && Keep(f, a) && t == TaskFor(a)
  {
    tasks := [];
    totalIPs := 0;
    var i := 0;
    while i < |ips|
      invariant 0 <= i <= |ips|
      invariant tasks == Kept(f, ips[..i])
      invariant totalIPs == |tasks|
    {
      var ip := ips[i];
      assert ips[..i + 1][..i] == ips[..i];
      if Keep(f, ip) {
        totalIPs := totalIPs + 1;
        tasks := tasks + [TaskFor(ip)];
      }
      i := i + 1;
    }
    assert ips[..i] == ips;
    KeptMembers(f, ips);
  }

  /** A task is launched exactly for the addresses that pass the filter. */
  lemma {:induction false} KeptMembers(f: Flags, ips: seq<Address>)
    ensures forall t :: t in Kept(f, ips) <==> exists a :: a in ips && Keep(f, a) && t == TaskFor(a)
    decreases |ips|
  {
    if |ips| > 0 {
      var init := ips[..|ips| - 1];
      KeptMembers(f, init);
      assert ips == init + [ips[|ips| - 1]];
    }
  }

  /** Filtering commutes with concatenation, so tasks keep the input order. */
  lemma {:induction false} KeptAppend(f: Flags, xs: seq<Address>, ys: seq<Address>)
    ensures Kept(f, xs + ys) == Kept(f, xs) + Kept(f, ys)
    decreases |ys|
  {
    if |ys| == 0 {
      assert xs + ys == xs;
    } else {
      var init := ys[..|ys| - 1];
      assert (xs + ys)[..|xs + ys| - 1] == xs + init;
      KeptAppend(f, xs, init);
    }
  }

  /** With neither switch, or with both, every address gets its task, in
      input order. */
  lemma {:induction false} KeptAll(f: Flags, ips: seq<Address>)
    requires f.ipv4 == f.ipv6
    ensures |Kept(f, ips)| == |ips|
    ensures forall i :: 0 <= i < |ips| ==> Kept(f, ips)[i] == TaskFor(ips[i])
    decreases |ips|
  {
    if |ips| > 0 {
      KeptAll(f, ips[..|ips| - 1]);
    }
  }

  /** With exactly one switch set, the tasks are those of the addresses of
      that family: all of them, and nothing of the other family. */
  lemma {:induction false} KeptOnly(f: Flags, fam: Family, ips: seq<Address>)
    requires f.ipv4 != f.ipv6
    requires fam == (if f.ipv4 then IPv4 else IPv6)
    ensures |Kept(f, ips)| == CountFamily(ips, fam)
    ensures forall t :: t in Kept(f, ips) ==> (t.isIPv6 <==> fam == IPv6)
    ensures forall a :: a in ips && a.family == fam ==> TaskFor(a) in Kept(f, ips)
    decreases |ips|
  {
    if |ips| > 0 {
      var init := ips[..|ips| - 1];
      KeptOnly(f, fam, init);
      assert ips == init + [ips[|ips| - 1]];
    }
  }

  /** Every address is of exactly one family; a helper for
      `KeptSplitsByFamily`. */
  lemma {:induction false} CountFamilies(ips: seq<Address>)
    ensures CountFamily(ips, IPv4) + CountFamily(ips, IPv6) == |ips|
    decreases |ips|
  {
    if |ips| > 0 {
      CountFamilies(ips[..|ips| - 1]);
    }
  }

  /** The tasks launched with only `-4` and those launched with only `-6`
      together are as many as those launched without a switch: the filter
      splits the addresses by family, losing and duplicating none. */
  lemma KeptSplitsByFamily(ips: seq<Address>)
    ensures |Kept(Flags(true, false), ips)| + |Kept(Flags(false, true), ips)| == |Kept(Flags(false, false), ips)|
  {
    KeptOnly(Flags(true, false), IPv4, ips);
    KeptOnly(Flags(false, true), IPv6, ips);
    KeptAll(Flags(false, false), ips);
    CountFamilies(ips);
  }
}

=== FILE: run.dfy ===
/** The flow of `main` (chick.go:230-307) with the concurrency replaced by
    explicit choices: each launched task gets the outcomes of its three
    sub-lookups and a completion order for them, and the collector receives
    the finished records in an arrival order, any permutation of the tasks. */
module Run {
  import opened Wrappers
  import opened Text
  import opened Resolve
  import opened ILine
  import opened Merge
  import opened Presenter

  /** `arrival[j]` is the task whose record reached the collector j-th; every
      task's record arrives exactly once. */
  predicate IsArrival(arrival: seq<nat>, n: nat)
  {
    && |arrival| == n
    && (forall j :: 0 <= j < n ==> arrival[j] < n)
    && (forall i, j :: 0 <= i < j < n ==> arrival[i] != arrival[j])
  }

  /** The per-task choices are given for every launched task. */
  predicate WellFormed(tasks: seq<Task>, outcomes: seq<Outcomes>, orders: seq<seq<SubLookup>>, arrival: seq<nat>)
  {
    && |outcomes| == |tasks|
    && |orders| == |tasks|
    && (forall i :: 0 <= i < |orders| ==> IsCompletionOrder(orders[i]))
    && IsArrival(arrival, |tasks|)
  }

  /** The tasks `main` launches: the target's addresses (chick.go:259-268)
      passed through the family filter (chick.go:270-278). A failed
      resolution ends the run before any task starts. */
  function Launch(f: Flags, literal: Option<Address>, lookup: Outcome<seq<Address>>): (r: Outcome<seq<Task>>)
    ensures r.Err? <==> literal.None? && lookup.Err?
    ensures literal.Some? ==> |r.value| <= 1
    ensures literal.Some? ==> (|r.value| == 1 <==> Keep(f, literal.value))
    ensures literal.Some? && Keep(f, literal.value) ==> r.value == [TaskFor(literal.value)]
    ensures literal.None? && lookup.Ok? ==>
              forall t :: t in r.value <==> exists a :: a in lookup.value && Keep(f, a) && t == TaskFor(a)
    ensures literal.None? && lookup.Ok? ==> r.value == Kept(f, lookup.value)
  {
    match Targets(literal, lookup)
    case Err(e) => Err(e)
    case Ok(ips) =>
      KeptMembers(f, ips);
      assert literal.Some? ==> ips == [literal.value] && ips[..0] == [] && Kept(f, ips[..0]) == [];
      Ok(Kept(f, ips))
  }

  /** The record of task `i`. */
  function TaskResult(tasks: seq<Task>, outcomes: seq<Outcomes>, orders: seq<seq<SubLookup>>, i: nat): (r: Result)
    requires i < |tasks| && |outcomes| == |tasks| && |orders| == |tasks|
    requires IsCompletionOrder(orders[i])
    ensures r.ip == tasks[i].ip && r.isIPv6 == tasks[i].isIPv6
    ensures r.error.None? <==> AllSucceeded(outcomes[i])
  {
    LookupIP(tasks[i].ip, tasks[i].isIPv6, outcomes[i], orders[i])
  }

  /** The `results` slice once the collector has drained the channel: one
      record per task, in arrival order. */
  function Collected(tasks: seq<Task>, outcomes: seq<Outcomes>, orders: seq<seq<SubLookup>>, arrival: seq<nat>): (results: seq<Result>)
    requires WellFormed(tasks, outcomes, orders, arrival)
    ensures |results| == |tasks|
    ensures forall j :: 0 <= j < |results| ==>
              results[j].ip == tasks[arrival[j]].ip && results[j].isIPv6 == tasks[arrival[j]].isIPv6
  {
    seq(|tasks|, j requires 0 <= j < |tasks| => TaskResult(tasks, outcomes, orders, arrival[j]))
  }

  /** What the run prints after the progress line is cleared. */
  function Report(tasks: seq<Task>, outcomes: seq<Outcomes>, orders: seq<seq<SubLookup>>, arrival: seq<nat>): (lines: seq<string>)
    requires WellFormed(tasks, outcomes, orders, arrival)
    ensures |lines| == 0 <==> |tasks| == 0
    ensures |SplitRecords(lines)| == |tasks|
  {
    var results := Collected(tasks, outcomes, orders, arrival);
    SplitRenderAll(results);
    RenderAll(results)
  }

  /** The whole run of `main` without interruption: validation of the
      target, resolution, launch, collection and the printed report. A
      rejected target or a failed resolution gives its fatal message
      instead, and nothing is launched. */
  function Execute(f: Flags, literal: Option<Address>, hostLookup: Outcome<seq<string>>, lookup: Outcome<seq<Address>>,
                   outcomes: seq<Outcomes>, orders: seq<seq<SubLookup>>, arrival: seq<nat>): (r: Outcome<seq<string>>)
    requires Validate(literal, hostLookup).None? && Launch(f, literal, lookup).Ok? ==>
               WellFormed(Launch(f, literal, lookup).value, outcomes, orders, arrival)
    ensures r.Err? <==> literal.None? && (hostLookup.Err? || lookup.Err?)
    ensures literal.None? && hostLookup.Err? ==>
              r.msg == InvalidTargetLabel + ": " + InvalidTargetPrefix + hostLookup.msg
    ensures literal.None? && hostLookup.Ok? && lookup.Err? ==>
              r.msg == LookupFailedLabel + ": " + lookup.msg
    ensures r.Ok? ==> |SplitRecords(r.value)| == |Launch(f, literal, lookup).value|
    ensures r.Ok? ==>
              var tasks := Launch(f, literal, lookup).value;
              forall j :: 0 <= j < |tasks| ==>
                SplitRecords(r.value)[j] == Render(TaskResult(tasks, outcomes, orders, arrival[j]))
  {
    match Validate(literal, hostLookup)
    case Some(e) => Err(e)
    case None =>
      match Launch(f, literal, lookup)
      case Err(e) => Err(e)
      case Ok(tasks) =>
        ReportBlocks(tasks, outcomes, orders, arrival);
        Ok(Report(tasks, outcomes, orders, arrival))
  }

  /** The report holds exactly one record per launched task: block j is the
      rendering of the j-th arrival's record. */
  lemma ReportBlocks(tasks: seq<Task>, outcomes: seq<Outcomes>, orders: seq<seq<SubLookup>>, arrival: seq<nat>)
    requires WellFormed(tasks, outcomes, orders, arrival)
    ensures |SplitRecords(Report(tasks, outcomes, orders, arrival))| == |tasks|
    ensures forall j :: 0 <= j < |tasks| ==>
              SplitRecords(Report(tasks, outcomes, orders, arrival))[j] ==
              Render(TaskResult(tasks, outcomes, orders, arrival[j]))
  {
    var results := Collected(tasks, outcomes, orders, arrival);
    var blocks := SplitRecords(Report(tasks, outcomes, orders, arrival));
    SplitRenderAll(results);
    forall j | 0 <= j < |tasks|
      ensures blocks[j] == Render(TaskResult(tasks, outcomes, orders, arrival[j]))
    {
      assert results[j] == TaskResult(tasks, outcomes, orders, arrival[j]);
      assert blocks[j] == Render(results[j]);
    }
  }

  /** Block j of the report is headed by the record type and address of the
      j-th arriving task. */
  lemma ReportHeaders(tasks: seq<Task>, outcomes: seq<Outcomes>, orders: seq<seq<SubLookup>>, arrival: seq<nat>, j: nat)
    requires WellFormed(tasks, outcomes, orders, arrival)
    requires j < |tasks|
    ensures var blocks := SplitRecords(Report(tasks, outcomes, orders, arrival));
            && |blocks| == |tasks|
            && |blocks[j]| > 0
            && blocks[j][0] == RecordType(tasks[arrival[j]].isIPv6) + " Record: " + tasks[arrival[j]].ip
  {
    ReportBlocks(tasks, outcomes, orders, arrival);
    var r := TaskResult(tasks, outcomes, orders, arrival[j]);
    assert Render(r)[0] == Header(r);
  }

  /** Block j of the report shows an Error line exactly when one of the
      lookups of the j-th arriving task failed. */
  lemma ReportErrorLines(tasks: seq<Task>, outcomes: seq<Outcomes>, orders: seq<seq<SubLookup>>, arrival: seq<nat>, j: nat)
    requires WellFormed(tasks, outcomes, orders, arrival)
    requires j < |tasks|
    ensures var blocks := SplitRecords(Report(tasks, outcomes, orders, arrival));
            |blocks| == |tasks| && (Shows(blocks[j], ErrorTag) <==> !AllSucceeded(outcomes[arrival[j]]))
  {
    ReportBlocks(tasks, outcomes, orders, arrival);
    RenderedLines(TaskResult(tasks, outcomes, orders, arrival[j]));
  }

  /** An I-line answer that decodes but carries a status other than
      "SUCCESS" is handled exactly like a transport error with the message
      "failed to get I-line info": no servers, and an error on the record. */
  lemma NonSuccessLikeTransportError(ip: string, isIPv6: bool, ptr: Outcome<seq<string>>, info: Outcome<IPInfo>,
                                     answer: ILineInfo, order: seq<SubLookup>)
    requires answer.status != SuccessStatus
    requires IsCompletionOrder(order)
    ensures var o := Outcomes(ptr, info, FetchILine(Ok(answer)));
            && o == Outcomes(ptr, info, FetchILine(Err(StatusError)))
            && LookupIP(ip, isIPv6, o, order).iLine == []
            && LookupIP(ip, isIPv6, o, order).error.Some?
  {
  }

  /** When all three lookups fail, the failure fragments are the three
      messages in completion order. */
  lemma ThreeFragments(o: Outcomes, order: seq<SubLookup>)
    requires IsCompletionOrder(order)
    requires o.ptr.Err? && o.info.Err? && o.iLine.Err?
    ensures FailureFragments(o, order) == [Fragment(o, order[0]), Fragment(o, order[1]), Fragment(o, order[2])]
  {
    FailureFragmentsSnoc(o, [], order[0]);
    assert [] + [order[0]] == [order[0]];
    FailureFragmentsSnoc(o, [order[0]], order[1]);
    assert [order[0]] + [order[1]] == [order[0], order[1]];
    FailureFragmentsSnoc(o, [order[0], order[1]], order[2]);
    assert [order[0], order[1]] + [order[2]] == order;
  }

  /** When all three lookups fail the record carries no data and an error;
      if the PTR lookup completed first, all three fragments are in it, in
      completion order. */
  lemma AllFail(ip: string, isIPv6: bool, e1: string, e2: string, e3: string, order: seq<SubLookup>)
    requires IsCompletionOrder(order)
    ensures var o := Outcomes(Err(e1), Err(e2), Err(e3));
            var r := LookupIP(ip, isIPv6, o, order);
            && r.ptr == [] && r.ipInfo.None? && r.iLine == [] && r.error.Some?
            && (order[0] == Ptr ==>
                  r.error.value == Fragment(o, order[0]) + Separator + Fragment(o, order[1]) + Separator + Fragment(o, order[2]))
  {
    var o := Outcomes(Err(e1), Err(e2), Err(e3));
    if order[0] == Ptr {
      AllFragmentsSurvive(ip, isIPv6, o, order);
      ThreeFragments(o, order);
      JoinThree(Fragment(o, order[0]), Fragment(o, order[1]), Fragment(o, order[2]), Separator);
    }
  }

  /** The record of the literal-target scenario below. */
  function ScenarioRecord(): Result
  {
    Result("1.2.3.4", ["host.example.com"], Some(IPInfo("1.2.3.4", "US", "AS1234 Example Org")),
           ["irc1.example.net", "irc2.example.net"], false, None)
  }

  /** The decoded I-line answer of the literal-target scenario. */
  function ScenarioAnswer(): ILineInfo
  {
    ILineInfo(SuccessStatus, [ServerEntry("irc1.example.net"), ServerEntry("irc2.example.net")])
  }

  /** Literal target 1.2.3.4 with -4 and every lookup answering: one task,
      and whatever the completion order its record has all four fields and
      no error. */
  lemma LiteralTargetScenario(order: seq<SubLookup>)
    requires IsCompletionOrder(order)
    ensures var a := Address("1.2.3.4", IPv4);
            var tasks := Kept(Flags(true, false), [a]);
            var o := Outcomes(Ok(["host.example.com"]), Ok(IPInfo("1.2.3.4", "US", "AS1234 Example Org")),
                              FetchILine(Ok(ScenarioAnswer())));
            && Targets(Some(a), Err("no such host")) == Ok([a])
            && tasks == [Task("1.2.3.4", false)]
            && LookupIP(tasks[0].ip, tasks[0].isIPv6, o, order) == ScenarioRecord()
  {
    var a := Address("1.2.3.4", IPv4);
    assert [a][..0] == [];
    var response := ScenarioAnswer().response;
    assert response[..1] == [ServerEntry("irc1.example.net")];
    assert ServerNames(response) == ["irc1.example.net", "irc2.example.net"];
  }

  /** The optional lines of the literal-target scenario's record. */
  lemma LiteralTargetFields()
    ensures Fields(ScenarioRecord()) ==
              [Field(PtrTag, "host.example.com"), Field(CountryTag, "US"), Field(OrgTag, "AS1234 Example Org"),
               Field(ILineTag, "irc1.example.net, irc2.example.net")]
  {
    var servers := ["irc1.example.net", "irc2.example.net"];
    assert servers[1..] == ["irc2.example.net"];
    assert Join(servers, ListSeparator) == "irc1.example.net, irc2.example.net";
  }

  /** The lines printed for the literal-target scenario's record: an A
      header, then the PTR, Country, Organization and I-Line Servers lines,
      no Error line, and the closing empty line. */
  lemma LiteralTargetRendering()
    ensures Render(ScenarioRecord()) ==
              [Header(ScenarioRecord()),
               Line(Field(PtrTag, "host.example.com")),
               Line(Field(CountryTag, "US")),
               Line(Field(OrgTag, "AS1234 Example Org")),
               Line(Field(ILineTag, "irc1.example.net, irc2.example.net")),
               ""]
    ensures RecordType(ScenarioRecord().isIPv6) == "A"
  {
    var r := ScenarioRecord();
    LiteralTargetFields();
    assert Render(r) == Layout(Header(r), Fields(r));
  }

  /** A hostname resolving to one IPv4 and one IPv6 address, without -4 or
      -6: two tasks, one rendered as an A record and one as AAAA. */
  lemma DualStackScenario(v4: string, v6: string)
    ensures var ips := [Address(v4, IPv4), Address(v6, IPv6)];
            var tasks := Kept(Flags(false, false), ips);
            && |tasks| == 2
            && RecordType(tasks[0].isIPv6) == "A"
            && RecordType(tasks[1].isIPv6) == "AAAA"
  {
    var ips := [Address(v4, IPv4), Address(v6, IPv6)];
    KeptAll(Flags(false, false), ips);
  }
}

=== FILE: text.dfy ===
/** String helpers with the meaning of Go's `strings` package. */
module Text {

  /** Whether `t` begins with `p` (`strings.HasPrefix`). */
  predicate StartsWith(t: string, p: string)
  {
    |p| <= |t| && t[..|p|] == p
  }

  /** `strings.Join(xs, sep)`: the elements in order with `sep` between
      neighbours; the empty list joins to the empty string. */
  function Join(xs: seq<string>, sep: string): (r: string)
    ensures |xs| == 0 ==> r == ""
    ensures |xs| == 1 ==> r == xs[0]
    ensures |xs| > 0 ==> StartsWith(r, xs[0])
  {
    if |xs| == 0 then ""
    else if |xs| == 1 then xs[0]
    else xs[0] + sep + Join(xs[1..], sep)
  }

  /** Joining one more element adds the separator and that element at the
      end: the joined text of the shorter list is kept as a prefix. */
  lemma {:induction false} JoinSnoc(xs: seq<string>, x: string, sep: string)
    requires |xs| > 0
    ensures Join(xs + [x], sep) == Join(xs, sep) + sep + x
    decreases |xs|
  {
    if |xs| == 1 {
      assert xs + [x] == [xs[0], x];
      assert (xs + [x])[1..] == [x];
    } else {
      assert (xs + [x])[1..] == xs[1..] + [x];
      JoinSnoc(xs[1..], x, sep);
    }
  }

  /** Three elements join with a separator between each neighbouring pair. */
  lemma JoinThree(a: string, b: string, c: string, sep: string)
    ensures Join([a, b, c], sep) == a + sep + b + sep + c
  {
    assert [a, b, c][1..] == [b, c];
    assert [b, c][1..] == [c];
  }
}

=== FILE: wrappers.dfy ===
/** Small value wrappers shared by the model: an optional value (Go's nil
    pointer or nil error) and the outcome of one external lookup (a value or
    the text of the Go error it returned). */
module Wrappers {

  /** A value that may be absent, as a Go pointer or `error` that may be nil. */
  datatype Option<+T> = None | Some(value: T)

  /** What an external call handed back: its value, or its error's message. */
  datatype Outcome<+T> = Ok(value: T) | Err(msg: string)
}
